=== FILE: README.md ===
# Productivity chatbot core in Dafny

This project models the logic core of a personal task manager with a chat front end:

- **Task record** (`Task` with its `to_dict`/`from_dict` pair). Module `TaskModel`, file `task.dfy`.
- **JSON-file task store** (`TaskService`: add, get, update, delete, clear, get-all). Module `TaskStore`, file `task_store.dfy`.
- **Workload balancer** (`WorkloadBalancer.check_new_task_impact`). Module `Balancer`, file `balancer.dfy`.
- **Legacy string to-do list** (`commands.py`). Module `Commands`, file `commands.dfy`.
- **Slash-command dispatcher** (`productivity_chatbot`). Module `Bot`, file `bot.dfy`.

Two helper modules support them. `Wrappers` holds `Option` and `Result`. `Text` holds ASCII `lower`/`strip`/`startswith`, decimal rendering of numbers, and `join`/`split` on one separator character.

Files are values. The task store's file is the ordered sequence of task dictionaries it holds. The to-do list's file is either missing or a saved list of strings. Each operation takes the file and returns the file it writes back together with its answer. Loading a stored dictionary can fail; that failure is the store's `Corrupt` error. Building a task from a dictionary the operation assembled can also fail; that is `Invalid`.

Where the source departs from what it evidently intends, the model states the intended behaviour. A comment at the model's definition records the departure:

- `check_new_task_impact` reads the due date with `new_task_data.get['due_date']`, which raises `TypeError` on every call. The model reads the key.
- The busy-day warning text lacks its `f` prefix, so it prints its placeholders literally.
- `DAILY_LIMITS[task_type]` raises `KeyError` for an unknown category. The model's categories form an enumeration, so no category is unknown.
- The parser declares `duration_estimate` a string, which the balancer's sum would reject. The model's candidate carries a number of minutes.
- The constructor's identifier parameter is `usr_id`, while `to_dict` emits `id`. The model names it `id` throughout and keeps the as-written variant for the finding below.

Behaviour kept as the code has it:

- `add_task` does not set `created_at`.
- `add_task` does not reject an empty title.
- `clear_tasks` overwrites the file without reading it first.

## Model

| member | source | states |
|---|---|---|
| `Text.Lower` | backend/models/bot.py:15 | lower-casing keeps the length, turns every ASCII capital into its small letter and leaves every other character in place |
| `Text.Strip` | backend/models/bot.py:21 | the stripped argument has no blank at either end and is empty exactly when the text was all blanks |
| `Text.StripPadded` | backend/models/bot.py:21 | stripping removes exactly the surrounding blanks and nothing of a word whose ends are not blank |
| `Text.StripIdempotent` | backend/models/bot.py:21-30 | a property of the model's strip at both argument sites: stripping a stripped argument again would change nothing (the source never strips twice) |
| `Text.NatToString` | backend/models/commands.py:28 | an entry's number is a non-empty run of decimal digits with no leading zero |
| `Text.ParseNatToString` | backend/models/commands.py:28 | the number printed at the start of a line reads back as that number |
| `Text.SplitJoin` | backend/models/commands.py:30 | joining lines with a line feed loses nothing when no line holds a line feed: splitting gives the lines back |
| `TaskModel.ParsePriority` | backend/models/task.py:13 | a priority name is accepted exactly when it is one of low, medium, high, and reads back to the priority of that name |
| `TaskModel.ParseStatus` | backend/models/task.py:14 | a status name is accepted exactly when it is one of todo, in_progress, done, and reads back to the status of that name |
| `TaskModel.ParseTaskType` | backend/models/task.py:16 | a category name is accepted exactly when it is one of personal, work, quick, and reads back to the category of that name |
| `TaskModel.ToDict` | backend/models/task.py:30-42 | a task's dictionary has exactly the ten keys id, title, description, due_date, due_time, priority, status, created_at, task_type, duration_est; `TaskModel.FromDictFields` with `TaskModel.FromDictToDict` fixes that each key holds the field of its name |
| `TaskModel.FromDict` | backend/models/task.py:46-47 | a dictionary makes a task exactly when every key is a field, id and title are present and every value fits its field; which field each key fills is `TaskModel.FromDictFields` |
| `TaskModel.FromDictFields` | backend/models/task.py:18-42 | each key of the dictionary, over the constructor's defaults, holds the field of the same name in the task it makes: due_date the due date, due_time the due time, and so on for all ten |
| `TaskModel.FromDictAsWritten` | backend/models/task.py:7-18 | with the identifier parameter named usr_id, a dictionary that makes a task must name usr_id and must not name id |
| `TaskModel.FromDictToDict` | backend/models/task.py:30-47 | reading back a task's own dictionary gives the same task |
| `TaskModel.ToDictInjective` | backend/models/task.py:30-42 | two tasks with the same dictionary are the same task |
| `TaskModel.ToDictFromDict` | backend/models/task.py:7-17 | the task read from a dictionary writes back as the constructor defaults overridden by that dictionary |
| `TaskModel.MinimalDictDefaults` | backend/models/task.py:7-17 | a task given only id and title has priority medium, status todo, category work and every other field empty |
| `TaskModel.ForeignKeysRejected` | backend/models/task.py:47 | a dictionary holding calendar_event_id or duration_estimate does not make a task |
| `TaskModel.AsWrittenRejectsOwnOutput` | backend/models/task.py:8-32 | as written, no dictionary that to_dict produces is accepted by from_dict |
| `TaskStore.InitialFile` | backend/services/tasks_service.py:15-19 | a newly created store loads as the empty task list |
| `TaskStore.LoadTasks` | backend/services/tasks_service.py:21-24 | loading succeeds exactly when every stored dictionary makes a task, and then gives one task per dictionary in file order |
| `TaskStore.LoadSave` | backend/services/tasks_service.py:21-28 | loading what was saved gives the saved tasks in the same order |
| `TaskStore.FirstIndex` | backend/services/tasks_service.py:56-57 | the position found holds the identifier and no earlier position does; nothing is found exactly when no task holds it |
| `TaskStore.WithoutId` | backend/services/tasks_service.py:41 | the filtered list holds exactly the tasks with another identifier, and is shorter exactly when some task held the identifier |
| `TaskStore.WithoutIdAppend` | backend/services/tasks_service.py:41 | filtering distributes over concatenation, so the kept tasks stay in their original order |
| `TaskStore.FindTask` | backend/services/tasks_service.py:49-52 | the scan returns the task at the first position holding the identifier, and nothing exactly when no task holds it |
| `TaskStore.AddTask` | backend/services/tasks_service.py:30-36 | add succeeds exactly when the file loads and the draft makes a task; the new task carries the new identifier and the draft's fields over the defaults; the file afterwards loads as the old tasks with the new one last |
| `TaskStore.DeleteTask` | backend/services/tasks_service.py:38-45 | delete reports true exactly when some task had the identifier; then the file loads as the old list without those tasks, and otherwise the file is left untouched |
| `TaskStore.GetTask` | backend/services/tasks_service.py:47-52 | get returns the task at the first position holding the identifier, or nothing exactly when none holds it |
| `TaskStore.UpdateTask` | backend/services/tasks_service.py:54-63 | update of an absent identifier leaves the file untouched; otherwise it succeeds exactly when the merged dictionary makes a task, the updated task's dictionary is the old one with the updates laid over it, and only that position of the list changes |
| `TaskStore.ClearTasks` | backend/services/tasks_service.py:65-66 | after clearing, whatever the file held, it loads as the empty list |
| `TaskStore.GetAllTasks` | backend/services/tasks_service.py:68-69 | get-all succeeds exactly when every stored dictionary makes a task and returns them in file order |
| `TaskStore.AddThenGet` | backend/services/tasks_service.py:30-52 | a task added under a fresh identifier is the task get returns for that identifier |
| `TaskStore.AddKeepsUniqueIds` | backend/services/tasks_service.py:30-36 | adding under a fresh identifier keeps identifiers pairwise distinct |
| `TaskStore.DeleteKeepsUniqueIds` | backend/services/tasks_service.py:38-45 | deleting keeps identifiers pairwise distinct and leaves no task with the deleted identifier |
| `TaskStore.UpdateKeepsUniqueIds` | backend/services/tasks_service.py:54-63 | an update that does not name id keeps identifiers pairwise distinct |
| `TaskStore.UpdateStatusOnly` | backend/services/tasks_service.py:56-62 | updating the status to done changes that task's status and nothing else in the store |
| `TaskStore.UpdateValidity` | backend/services/tasks_service.py:58-60 | laying updates over a task's dictionary makes a task exactly when every updated key is a field and every new value fits it |
| `Balancer.TasksForDate` | backend/services/balancer_service.py:21-26 | the day's tasks are exactly the stored tasks due that day whose status is todo or in_progress |
| `Balancer.TasksForDateAppend` | backend/services/balancer_service.py:23-26 | selecting the day's tasks distributes over concatenation, so stored order is kept |
| `Balancer.CheckNewTaskImpact` | backend/services/balancer_service.py:28-77 | no due date gives the fixed no-impact verdict; otherwise there is one warning per threshold passed and no other; a count warning comes first, exactly when the category count exceeds its limit; one duration warning comes exactly when the total exceeds 480, the overload kind exactly when it exceeds 600; the task is refused exactly when the count exceeds limit+2 or the total exceeds 600, so refusal implies a warning; the message is balanced, mindful or different-day exactly as the verdict and warnings say |
| `Balancer.CategoryCountIsMatchingTasks` | backend/services/balancer_service.py:39-43 | the reported category count is one more than the number of stored tasks that are pending, due that day and of the candidate's category (work when unset) |
| `Balancer.DatedImpact` | backend/services/balancer_service.py:30-39 | a candidate with a non-empty due date is judged on the pending tasks of that very day |
| `Balancer.NewTotalIsDayLoad` | backend/services/balancer_service.py:45-46 | the reported total is the candidate's estimate (0 when missing) for an empty store, and one more stored task adds its estimate (0 when missing) exactly when it is pending on the candidate's day |
| `Balancer.SameDaySameImpact` | backend/services/balancer_service.py:39-46 | the verdict depends on the stored tasks only through the day's pending tasks |
| `Balancer.VerdictMessageText` | backend/services/balancer_service.py:64-69 | the message reads "Good choice! {date} has a balanced workload." when the task may be added without a warning, the mindful text when with one, the different-day text when refused, and the no-due-date text without a date |
| `Balancer.CountMatchesPositions` | backend/services/balancer_service.py:42 | counting the category among the day's tasks equals counting positions of the snapshot that match day, status and category |
| `Balancer.IrrelevantTaskIgnored` | backend/services/balancer_service.py:21-26 | a stored task that is done or due on another day does not change the verdict, wherever it sits |
| `Balancer.DoneTaskIgnored` | backend/services/balancer_service.py:25 | a done task never affects the verdict |
| `Balancer.NoDueDateIgnoresLoad` | backend/services/balancer_service.py:30-37 | without a due date (missing or empty) the verdict is the no-impact one whatever is stored |
| `Balancer.MoreLoadNeverHelps` | backend/services/balancer_service.py:41-62 | if the candidate may be added to a day with one more stored task, it may be added to the day without it |
| `Balancer.WorkCountBoundary` | backend/services/balancer_service.py:51-54 | with three pending work tasks a fourth is warned about but allowed; reaching the limit exactly gives no warning |
| `Balancer.WorkCountRefusal` | backend/services/balancer_service.py:51-54 | with five pending work tasks a sixth is refused |
| `Balancer.DurationBoundary` | backend/services/balancer_service.py:56-62 | 560+50 minutes is refused with an overload warning; 560+30 and exactly 600 are allowed with a busy-day warning |
| `Commands.IndexOf` | backend/models/commands.py:35-36 | the position found holds the entry and no earlier position does |
| `Commands.RemoveFirst` | backend/models/commands.py:36 | removal takes out the first occurrence and keeps everything else in order |
| `Commands.RemoveFirstOneCopy` | backend/models/commands.py:36 | removal shortens the list by one and removes exactly one copy of the entry |
| `Commands.ListingLines` | backend/models/commands.py:24-30 | the listing splits at line feeds into one line per entry, line i reading "{i+1}. {entry}", when no entry holds a line feed |
| `Commands.ListingSnoc` | backend/models/commands.py:24-30 | appending an entry appends a line feed and its numbered line to a non-empty listing |
| `Commands.ListingStartsAtOne` | backend/models/commands.py:24-30 | numbering starts at 1 |
| `Commands.AddTask` | backend/models/commands.py:20-30 | add appends the entry last and answers with exactly what list answers next |
| `Commands.RemoveTask` | backend/models/commands.py:33-39 | remove of a present entry drops its first occurrence and answers "Successfully removed: …"; otherwise the file is untouched and the answer is "… not found in tasks" |
| `Commands.ClearTasks` | backend/models/commands.py:42-44 | clear leaves an empty list that lists as empty, and answers "Tasks cleared" |
| `Commands.ListTasks` | backend/models/commands.py:47-57 | list answers "Your to-do list is empty" exactly when the list is empty, a missing file included, and otherwise the numbered listing, whose lines `Commands.ListingSingle` and `Commands.ListingSnoc` fix for any entries, line feeds inside them included |
| `Commands.ListingSingle` | backend/models/commands.py:24-30 | a one-entry listing is "1. " followed by the entry |
| `Commands.AddThenList` | backend/models/commands.py:20-56 | after an add, when no entry holds a line feed, the listing splits back into one numbered line per entry with the new one last |
| `Commands.AddThenRemove` | backend/models/commands.py:20-39 | removing the only entry just added gives the empty list again |
| `Bot.ParseCommand` | backend/models/bot.py:15-42 | commands are recognised by prefixes of the lower-cased input, tried in the order add, remove, list, clear; the add and remove arguments are the original input from offsets 4 and 7, stripped |
| `Bot.Respond` | backend/models/bot.py:14-43 | non-commands answer nothing and leave the list; empty arguments answer with a prompt and leave the list; a successful add appends the entry and answers "Added task: {task}\n\n**Your tasks:**\n" with the listing; list, remove and clear answer as the list commands do |
| `Bot.RecognitionIgnoresCase` | backend/models/bot.py:15-20 | inputs that lower-case alike are recognised as the same kind of command |
| `Bot.AddKeepsArgumentCase` | backend/models/bot.py:20-21 | "/add" in any case followed by blanks and a word adds that word in the case it was typed |
| `Bot.UpperCaseAddExample` | backend/models/bot.py:20-24 | "/ADD Buy Milk" adds "Buy Milk" |
| `Bot.ListingPrefixExample` | backend/models/bot.py:37 | "/listing" is recognised as the list command |
| `Bot.NoSlashNoCommand` | backend/models/bot.py:43 | input that does not start with a slash, leading blanks included, answers nothing and leaves the list |
| `Bot.BlankAddAddsNothing` | backend/models/bot.py:25-26 | "/add" followed only by blanks answers "no task specified, please provide a task" and leaves the list |

## Left out

- File I/O is not modelled: opening, `json.load`/`json.dump`, directory creation, write atomicity and concurrent access. Both stores are file values passed in and returned.
- Malformed JSON in either file is not modelled. JSON values other than strings, integers and null are not modelled either.
- The fresh `uuid4` identifier is the `newId` parameter of `TaskStore.AddTask`. Its freshness is a precondition of the lemmas that need it.
- `TaskModel.FromDict`: stricter than the Python constructor. The constructor stores any value verbatim. The model rejects a value of the wrong kind, an unknown priority, status or category name, and a negative duration. The accepted names are those of the constructor's defaults (backend/models/task.py:13-16), the balancer's status filter (backend/services/balancer_service.py:25) the parser's enumerations (backend/services/nlp_parser_service.py:38,44), and, for "done", the front end's completion toggle (front-end/streamlit_app.py:130-133) and the summary service's completed filter (backend/services/openai_service.py:38). The source's own field comments name other spellings ("med", "in prog"), which are rejected.
- `Balancer.CheckNewTaskImpact`: reports the new total in whole minutes. The source reports `round(new_mins / 60, 1)` hours, which is float rounding.
- `Balancer.CheckNewTaskImpact`: each warning is a value carrying the figures its text prints. The two duration warnings print the rounded float hours, so the model does not render their text. The count warning is not rendered either, so its fixed "th" suffix is not modelled.
- `Balancer.CheckNewTaskImpact`: the candidate is a typed record. A category outside the three has no counterpart, so neither does the source's `KeyError` for it. A missing category means work. A missing duration means 0. An explicit null is treated as missing, although in Python a null category raises `KeyError` and a null duration raises `TypeError` in the sum. A duration given as a string, as the parser declares it, has no counterpart, and neither has a negative estimate, which the Python sum would add.
- `Text.Lower` and `Text.Strip` cover ASCII only. Python's Unicode case mapping and Unicode whitespace are not modelled.
- The natural-language parser, the LLM chat and summary service, the calendar integration, the HTTP routes, the Streamlit front end, configuration and app wiring are not modelled. They are external collaborators or presentation. The create route stores the task whatever the balancer says, so the balancer's verdict is advisory only.

## Findings

| source | as written | input that shows it | evidently intended | confidence | as-written member | corrected member |
|---|---|---|---|---|---|---|
| backend/models/task.py:8 | the constructor's identifier parameter is `usr_id`, but `to_dict` emits `id`, so `Task(**task.to_dict())` raises `TypeError`; every stored task fails to load, and `add_task` fails because it sets `task_data['id']` | any task, e.g. one with id "a" and title "b" (lemma `TaskModel.AsWrittenRejectsOwnOutput`) | the parameter is named `id`, so that `from_dict(to_dict(t)) == t` | high, not executed | `TaskModel.FromDictFields` | backend/models/task.py:18-42 | each key of the dictionary, over the constructor's defaults, holds the field of the same name in the task it makes: due_date the due date, due_time the due time, and so on for all ten |
| `TaskModel.FromDictAsWritten` | `TaskModel.FromDict` (round trip `TaskModel.FromDictToDict`) |

=== FILE: balancer.dfy ===
/** The workload balancer (`WorkloadBalancer` in
    `backend/services/balancer_service.py`): an advisory verdict on adding a
    candidate task to a day, computed from a snapshot of the stored tasks.

    The verdict is advisory only: the task-creation route stores the task
    whatever the verdict says. */
module Balancer {
  import opened Wrappers
  import opened TaskModel

  // ---------------------------------------------------------------------------
  // Thresholds

  /** `DAILY_LIMITS`: how many pending tasks of one category a day may hold
      before a warning. Every category has a limit, so the `KeyError` the
      Python lookup raises for an unknown category cannot arise here. */
  function DailyLimit(tt: TaskType): nat {
    match tt
    case Personal => 3
    case Work => 3
    case Quick => 5
  }

  /** How far past its limit a category may go before the day is refused. */
  const CountSlack := 2

  /** `RECOMMENDED_DAILY_MINS`: past this total a day is busy. */
  const RecommendedDailyMins := 480

  /** `MAX_MINS`: past this total a day is overloaded. */
  const MaxMins := 600

  // ---------------------------------------------------------------------------
  // Inputs and outputs

  /** The candidate task as the parser hands it over. Every field may be
      missing. `durationEstimate` is in minutes: the parser declares it a
      string, which the Python sum would reject; here it is a number. */
  datatype Draft = Draft(
    dueDate: Option<string>,
    taskType: Option<TaskType>,
    durationEstimate: Option<nat>)

  /** A warning, with the figures its text reports. */
  datatype Warning =
    | CountWarning(count: nat, taskType: TaskType, date: string, limit: nat)
      // "This will be your {count}th {task_type} task on {date} (recommended: {limit})"
    | OverloadWarning(totalMins: nat, date: string)
      // "This will bring your total to {hours} hours on {date}. Consider choosing a different day."
    | BusyDayWarning(totalMins: nat, date: string)
      // The busy-day text lacks its `f` prefix in the source, so it is printed
      // with the literal placeholders `{round(hours, 1)}` and `{due_date}`.

  /** Which of the four fixed messages the verdict carries. */
  datatype Message = NoDueDate | Balanced(date: string) | Mindful | DifferentDay

  /** `new_category_count` and the new total; the source reports the total as
      hours rounded to one decimal, the model keeps the exact minutes. */
  datatype Totals = Totals(newCategoryCount: nat, newTotalMins: nat)

  /** The dictionary `check_new_task_impact` returns. `totals` is absent for a
      candidate without a due date, whose result has no such keys. */
  datatype Impact = Impact(canAdd: bool, warnings: seq<Warning>, message: Message, totals: Option<Totals>)

  function MessageText(m: Message): string {
    match m
    case NoDueDate => "No due date specified, so no workload impact."
    case Balanced(date) => "Good choice! " + date + " has a balanced workload."
    case Mindful => "You can add this task, but be mindful of your workload!"
    case DifferentDay => "Consider choosing a different day to avoid overload :(."
  }

  // ---------------------------------------------------------------------------
  // The day's load

  predicate IsPending(s: Status) {
    s == Todo || s == InProgress
  }

  /** Whether a stored task counts towards the load of `date`. */
  predicate OnDay(t: Task, date: string) {
    t.dueDate == Some(date) && IsPending(t.status)
  }

  /** `get_tasks_for_date`: the pending tasks due on `date`, in stored order. */
  function TasksForDate(ts: seq<Task>, date: string): (r: seq<Task>)
    ensures forall t :: t in r <==> t in ts && OnDay(t, date)
    ensures |r| <= |ts|
    decreases |ts|
  {
    if ts == [] then []
    else
      var rest := TasksForDate(ts[1..], date);
      assert ts == [ts[0]] + ts[1..];
      if OnDay(ts[0], date) then [ts[0]] + rest else rest
  }

  /** How many of `ts` are of category `tt`. */
  function CountOfType(ts: seq<Task>, tt: TaskType): nat
    decreases |ts|
  {
    if ts == [] then 0
    else (if ts[0].taskType == tt then 1 else 0) + CountOfType(ts[1..], tt)
  }

  /** The summed duration of `ts`, a missing estimate counting as zero. */
  function TotalMins(ts: seq<Task>): nat
    decreases |ts|
  {
    if ts == [] then 0 else ts[0].durationEst.GetOr(0) + TotalMins(ts[1..])
  }

  // ---------------------------------------------------------------------------
  // The verdict

  /** The result for a candidate without a due date. */
  function NoImpact(): Impact {
    Impact(true, [], NoDueDate, None)
  }

  /** The candidate's due date, if it has a non-empty one (`if not due_date`
      treats an empty string like a missing date). */
  function DueDateOf(draft: Draft): Option<string> {
    if draft.dueDate.Some? && draft.dueDate.value != "" then draft.dueDate else None
  }

  /** `check_new_task_impact`. The source reads the due date with
      `new_task_data.get['due_date']`, subscripting the method instead of
      calling it, which raises `TypeError` for every input; the model reads the
      key as `get('due_date')` evidently intends.

      Without a due date the verdict is the fixed no-impact result. Otherwise:
      at most two warnings, the count warning (if any) first; a count warning
      exactly when the category count passes its limit; one duration warning
      exactly when the total passes 480 minutes, the overload kind past 600;
      the task is refused exactly when the count passes its limit by more than
      two or the total passes 600, so a refusal always comes with a warning;
      and the message follows from the verdict and the warnings. */
  function CheckNewTaskImpact(ts: seq<Task>, draft: Draft): (r: Impact)
    ensures DueDateOf(draft).None? ==> r == NoImpact()
    ensures DueDateOf(draft).Some? ==>
      var d := DueDateOf(draft).value;
      var tt := draft.taskType.GetOr(Work);
      var limit := DailyLimit(tt);
      && r.totals.Some?
      && var count := r.totals.value.newCategoryCount;
      && var mins := r.totals.value.newTotalMins;
      && count >= 1
      && |r.warnings| == (if count > limit then 1 else 0) + (if mins > RecommendedDailyMins then 1 else 0)
      && (count > limit <==> |r.warnings| > 0 && r.warnings[0] == CountWarning(count, tt, d, limit))
      && (mins > RecommendedDailyMins <==> |r.warnings| > 0 && !r.warnings[|r.warnings| - 1].CountWarning?)
      && (mins > MaxMins <==> |r.warnings| > 0 && r.warnings[|r.warnings| - 1] == OverloadWarning(mins, d))
      && (RecommendedDailyMins < mins <= MaxMins <==>
            |r.warnings| > 0 && r.warnings[|r.warnings| - 1] == BusyDayWarning(mins, d))
      && (r.canAdd <==> count <= limit + CountSlack && mins <= MaxMins)
      && (!r.canAdd ==> |r.warnings| > 0)
      && (r.message == Balanced(d) <==> r.canAdd && r.warnings == [])
      && (r.message == Mindful <==> r.canAdd && r.warnings != [])
      && (r.message == DifferentDay <==> !r.canAdd)
  {
    match DueDateOf(draft)
    case None => NoImpact()
    case Some(d) => DayImpact(TasksForDate(ts, d), d, draft)
  }

  /** The verdict for a candidate due on `d`, given the tasks pending on `d`. */
  function DayImpact(day: seq<Task>, d: string, draft: Draft): Impact {
    var tt := draft.taskType.GetOr(Work);
    var newCount := CountOfType(day, tt) + 1;
    var newMins := TotalMins(day) + draft.durationEstimate.GetOr(0);
    var limit := DailyLimit(tt);
    var countWarnings := if newCount > limit then [CountWarning(newCount, tt, d, limit)] else [];
    var countBlocks := newCount > limit + CountSlack;
    var durationWarnings :=
      if newMins > MaxMins then [OverloadWarning(newMins, d)]
      else if newMins > RecommendedDailyMins then [BusyDayWarning(newMins, d)]
      else [];
    var canAdd := !countBlocks && newMins <= MaxMins;
    var warnings := countWarnings + durationWarnings;
    var message :=
      if canAdd && |warnings| == 0 then Balanced(d)
      else if canAdd then Mindful
      else DifferentDay;
    Impact(canAdd, warnings, message, Some(Totals(newCount, newMins)))
  }

  // ---------------------------------------------------------------------------
  // Properties

  lemma {:induction false} TasksForDateAppend(a: seq<Task>, b: seq<Task>, date: string)
    ensures TasksForDate(a + b, date) == TasksForDate(a, date) + TasksForDate(b, date)
    decreases |a|
  {
    if a == [] {
      assert a + b == b;
    } else {
      assert (a + b)[1..] == a[1..] + b;
      TasksForDateAppend(a[1..], b, date);
    }
  }

  lemma {:induction false} CountOfTypeAppend(a: seq<Task>, b: seq<Task>, tt: TaskType)
    ensures CountOfType(a + b, tt) == CountOfType(a, tt) + CountOfType(b, tt)
    decreases |a|
  {
    if a == [] {
      assert a + b == b;
    } else {
      assert (a + b)[1..] == a[1..] + b;
      CountOfTypeAppend(a[1..], b, tt);
    }
  }

  lemma {:induction false} TotalMinsAppend(a: seq<Task>, b: seq<Task>)
    ensures TotalMins(a + b) == TotalMins(a) + TotalMins(b)
    decreases |a|
  {
    if a == [] {
      assert a + b == b;
    } else {
      assert (a + b)[1..] == a[1..] + b;
      TotalMinsAppend(a[1..], b);
    }
  }

  /** The positions of the stored tasks that count towards category `tt` on
      `date`. */
  ghost function MatchingPositions(ts: seq<Task>, date: string, tt: TaskType): set<int> {
    set i | 0 <= i < |ts| && OnDay(ts[i], date) && ts[i].taskType == tt
  }

  /** The category count the balancer reports is one more than the number of
      stored tasks that are pending, due on the candidate's date and of the
      candidate's category. */
  lemma {:induction false} CategoryCountIsMatchingTasks(ts: seq<Task>, draft: Draft)
    requires DueDateOf(draft).Some?
    ensures var d := DueDateOf(draft).value;
      CheckNewTaskImpact(ts, draft).totals.value.newCategoryCount ==
        |MatchingPositions(ts, d, draft.taskType.GetOr(Work))| + 1
  {
    var d := DueDateOf(draft).value;
    var tt := draft.taskType.GetOr(Work);
    CountMatchesPositions(ts, d, tt);
  }

  lemma {:induction false} CountMatchesPositions(ts: seq<Task>, date: string, tt: TaskType)
    ensures CountOfType(TasksForDate(ts, date), tt) == |MatchingPositions(ts, date, tt)|
    decreases |ts|
  {
    if ts == [] {
      assert MatchingPositions(ts, date, tt) == {};
    } else {
      var n := |ts| - 1;
      var p := ts[..n];
      var t := ts[n];
      assert ts == p + [t];
      CountMatchesPositions(p, date, tt);
      TasksForDateAppend(p, [t], date);
      CountOfTypeAppend(TasksForDate(p, date), TasksForDate([t], date), tt);
      PositionsSnoc(p, t, date, tt);
    }
  }

  lemma PositionsSnoc(p: seq<Task>, t: Task, date: string, tt: TaskType)
    ensures |MatchingPositions(p + [t], date, tt)| ==
      |MatchingPositions(p, date, tt)| + CountOfType(TasksForDate([t], date), tt)
  {
    var ts := p + [t];
    var n := |p|;
    var last: set<int> := if OnDay(t, date) && t.taskType == tt then {n} else {};
    var whole := MatchingPositions(ts, date, tt);
    var before := MatchingPositions(p, date, tt);
    forall i | 0 <= i < n
      ensures ts[i] == p[i]
    {
    }
    forall i
      ensures i in whole <==> i in before + last
    {
      if 0 <= i < n {
        assert ts[i] == p[i];
      }
    }
    assert whole == before + last;
    assert before !! last;
    assert TasksForDate([t], date) == if OnDay(t, date) then [t] else [];
  }

  /** A candidate with a non-empty due date is judged on that day's pending
      tasks. */
  lemma DatedImpact(ts: seq<Task>, draft: Draft, d: string)
    requires draft.dueDate == Some(d) && d != ""
    ensures CheckNewTaskImpact(ts, draft) == DayImpact(TasksForDate(ts, d), d, draft)
  {
  }

  /** The reported total is the candidate's estimate (0 when missing) plus the
      estimates of the stored tasks pending on its day (0 for a task without
      one): it is the estimate alone for an empty store, and one more stored
      task adds its estimate exactly when it is pending on that day. */
  lemma {:induction false} NewTotalIsDayLoad(ts: seq<Task>, t: Task, draft: Draft)
    requires DueDateOf(draft).Some?
    ensures CheckNewTaskImpact([], draft).totals.value.newTotalMins == draft.durationEstimate.GetOr(0)
    ensures var d := DueDateOf(draft).value;
      CheckNewTaskImpact(ts + [t], draft).totals.value.newTotalMins ==
        CheckNewTaskImpact(ts, draft).totals.value.newTotalMins
          + (if OnDay(t, d) then t.durationEst.GetOr(0) else 0)
  {
    var d := DueDateOf(draft).value;
    TasksForDateAppend(ts, [t], d);
    TotalMinsAppend(TasksForDate(ts, d), TasksForDate([t], d));
    assert [t][1..] == [];
    assert TasksForDate([t], d) == if OnDay(t, d) then [t] else [];
    assert TotalMins([t]) == t.durationEst.GetOr(0);
  }

  /** The message text the verdict carries, as the source words it: the fixed
      no-due-date text, the balanced text naming the day when the task may be
      added without a warning, the mindful text when it may be added with one,
      and the different-day text when it is refused. */
  lemma VerdictMessageText(ts: seq<Task>, draft: Draft)
    ensures var r := CheckNewTaskImpact(ts, draft);
      && (DueDateOf(draft).None? ==>
            MessageText(r.message) == "No due date specified, so no workload impact.")
      && (DueDateOf(draft).Some? ==>
            MessageText(r.message) ==
              if r.canAdd && r.warnings == [] then
                "Good choice! " + DueDateOf(draft).value + " has a balanced workload."
              else if r.canAdd then "You can add this task, but be mindful of your workload!"
              else "Consider choosing a different day to avoid overload :(.")
  {
  }

  /** A stored task that is done, or due on another day, has no effect on the
      verdict, wherever it sits in the snapshot. */
  lemma IrrelevantTaskIgnored(a: seq<Task>, t: Task, b: seq<Task>, draft: Draft)
    requires DueDateOf(draft).Some? ==> !OnDay(t, DueDateOf(draft).value)
    ensures CheckNewTaskImpact(a + [t] + b, draft) == CheckNewTaskImpact(a + b, draft)
  {
    if DueDateOf(draft).Some? {
      SkippedTaskSameDay(a, t, b, DueDateOf(draft).value);
    }
    SameDaySameImpact(a + [t] + b, a + b, draft);
  }

  lemma SkippedTaskSameDay(a: seq<Task>, t: Task, b: seq<Task>, d: string)
    requires !OnDay(t, d)
    ensures TasksForDate(a + [t] + b, d) == TasksForDate(a + b, d)
  {
    TasksForDateAppend(a + [t], b, d);
    TasksForDateAppend(a, [t], d);
    TasksForDateAppend(a, b, d);
    assert TasksForDate([t], d) == [];
    assert TasksForDate(a, d) + [] == TasksForDate(a, d);
  }

  /** The verdict depends on the snapshot only through the day's tasks. */
  lemma SameDaySameImpact(ts1: seq<Task>, ts2: seq<Task>, draft: Draft)
    requires DueDateOf(draft).Some? ==>
      TasksForDate(ts1, DueDateOf(draft).value) == TasksForDate(ts2, DueDateOf(draft).value)
    ensures CheckNewTaskImpact(ts1, draft) == CheckNewTaskImpact(ts2, draft)
  {
  }

  /** Done tasks never count, whatever their date or category. */
  lemma DoneTaskIgnored(a: seq<Task>, t: Task, b: seq<Task>, draft: Draft)
    requires t.status == Done
    ensures CheckNewTaskImpact(a + [t] + b, draft) == CheckNewTaskImpact(a + b, draft)
  {
    IrrelevantTaskIgnored(a, t, b, draft);
  }

  /** Without a due date the verdict is the same whatever is stored. */
  lemma NoDueDateIgnoresLoad(ts1: seq<Task>, ts2: seq<Task>, draft: Draft)
    requires draft.dueDate.None? || draft.dueDate == Some("")
    ensures CheckNewTaskImpact(ts1, draft) == CheckNewTaskImpact(ts2, draft) == NoImpact()
  {
  }

  /** One more stored task can only make the verdict stricter: if the candidate
      may be added to the busier day, it may be added to the quieter one. */
  lemma MoreLoadNeverHelps(ts: seq<Task>, t: Task, draft: Draft)
    ensures CheckNewTaskImpact(ts + [t], draft).canAdd ==> CheckNewTaskImpact(ts, draft).canAdd
  {
    if DueDateOf(draft).Some? {
      var d := DueDateOf(draft).value;
      var tt := draft.taskType.GetOr(Work);
      TasksForDateAppend(ts, [t], d);
      CountOfTypeAppend(TasksForDate(ts, d), TasksForDate([t], d), tt);
      TotalMinsAppend(TasksForDate(ts, d), TasksForDate([t], d));
    }
  }

  // ---------------------------------------------------------------------------
  // Boundary cases

  function PendingWork(id: string, date: string, mins: nat): Task {
    Task(id, "t", None, Some(date), None, Medium, Todo, None, Work, Some(mins))
  }

  /** Three pending work tasks on the day: a fourth passes the limit of three
      and is warned about but allowed; reaching the limit is not warned about. */
  lemma WorkCountBoundary()
    ensures var ts := [PendingWork("a", "2025-01-01", 0), PendingWork("b", "2025-01-01", 0),
                       PendingWork("c", "2025-01-01", 0)];
      var r := CheckNewTaskImpact(ts, Draft(Some("2025-01-01"), Some(Work), None));
      && r.canAdd
      && r.warnings == [CountWarning(4, Work, "2025-01-01", 3)]
      && r.message == Mindful
    ensures var ts := [PendingWork("a", "2025-01-01", 0), PendingWork("b", "2025-01-01", 0)];
      var r := CheckNewTaskImpact(ts, Draft(Some("2025-01-01"), None, None));
      r.canAdd && r.warnings == [] && r.message == Balanced("2025-01-01")
  {
  }

  /** Five pending work tasks on the day: a sixth passes the limit by three and
      is refused. */
  lemma WorkCountRefusal()
    ensures var d := "2025-01-01";
      var ts := [PendingWork("a", d, 0), PendingWork("b", d, 0), PendingWork("c", d, 0),
                 PendingWork("e", d, 0), PendingWork("f", d, 0)];
      var r := CheckNewTaskImpact(ts, Draft(Some(d), Some(Work), None));
      !r.canAdd && r.message == DifferentDay
  {
  }

  /** 560 minutes already on the day: 50 more makes 610, past the ceiling, and
      is refused; 30 more makes 590, busy but allowed. */
  lemma DurationBoundary()
    ensures var r := CheckNewTaskImpact([PendingWork("a", "2025-01-01", 560)], Draft(Some("2025-01-01"), Some(Personal), Some(50)));
      !r.canAdd && r.warnings == [OverloadWarning(610, "2025-01-01")]
    ensures var r := CheckNewTaskImpact([PendingWork("a", "2025-01-01", 560)], Draft(Some("2025-01-01"), Some(Personal), Some(30)));
      r.canAdd && r.warnings == [BusyDayWarning(590, "2025-01-01")]
    ensures var r := CheckNewTaskImpact([PendingWork("a", "2025-01-01", 560)], Draft(Some("2025-01-01"), Some(Personal), Some(40)));
      r.canAdd && r.warnings == [BusyDayWarning(600, "2025-01-01")]
  {
    var d := "2025-01-01";
    var t := PendingWork("a", d, 560);
    assert TasksForDate([t], d) == [t] by {
      assert [t][1..] == [];
    }
    assert TotalMins([t]) == 560 by {
      assert [t][1..] == [];
    }
    assert CountOfType([t], Personal) == 0 by {
      assert [t][1..] == [];
    }
  }
}

=== FILE: bot.dfy ===
/** The slash-command front of the chatbot (`productivity_chatbot` in
    `backend/models/bot.py`). A command is recognised by a prefix of the
    lower-cased input; its argument is cut from the input as typed, at a fixed
    offset, and stripped. Anything else is not a command and gets no answer. */
module Bot {
  import opened Wrappers
  import opened Text
  import opened Commands

  /** A recognised command, with its stripped argument. */
  datatype Command = AddCmd(task: string) | RemoveCmd(task: string) | ListCmd | ClearCmd | NoCommand

  const NoTaskText := "no task specified, please provide a task"
  const NoRemoveText := "Please specify task to remove"

  /** The prefixes are tried in the order add, remove, list, clear; the first
      that the lower-cased input starts with decides. The argument of `/add` is
      the input from offset 4 on, that of `/remove` from offset 7 on, both
      stripped and in their original case. */
  function ParseCommand(input: string): (c: Command)
    ensures var low := Lower(input);
      && (c.AddCmd? <==> StartsWith(low, "/add"))
      && (c.RemoveCmd? <==> !StartsWith(low, "/add") && StartsWith(low, "/remove"))
      && (c.ListCmd? <==> !StartsWith(low, "/add") && !StartsWith(low, "/remove") && StartsWith(low, "/list"))
      && (c.ClearCmd? <==>
            !StartsWith(low, "/add") && !StartsWith(low, "/remove") && !StartsWith(low, "/list")
            && StartsWith(low, "/clear"))
    ensures c.AddCmd? ==> |input| >= 4 && c.task == Strip(input[4..])
    ensures c.RemoveCmd? ==> |input| >= 7 && c.task == Strip(input[7..])
  {
    var low := Lower(input);
    if StartsWith(low, "/add") then AddCmd(Strip(input[4..]))
    else if StartsWith(low, "/remove") then RemoveCmd(Strip(input[7..]))
    else if StartsWith(low, "/list") then ListCmd
    else if StartsWith(low, "/clear") then ClearCmd
    else NoCommand
  }

  /** `productivity_chatbot` for the list commands: the list file afterwards and
      the answer, `None` for input that is not a command. An empty argument is
      answered with a prompt and leaves the list alone; a successful `/add`
      answers with the added entry and the listing `/list` would show next. */
  function Respond(f: ListFile, input: string): (r: (ListFile, Option<string>))
    ensures r.1.None? <==> ParseCommand(input).NoCommand?
    ensures ParseCommand(input).NoCommand? ==> r.0 == f
    ensures ParseCommand(input) == AddCmd("") ==> r == (f, Some(NoTaskText))
    ensures ParseCommand(input).AddCmd? && ParseCommand(input).task != "" ==>
      var task := ParseCommand(input).task;
      && LoadItems(r.0) == LoadItems(f) + [task]
      && r.1 == Some("Added task: " + task + "\n\n**Your tasks:**\n" + ListTasks(r.0))
    ensures ParseCommand(input) == RemoveCmd("") ==> r == (f, Some(NoRemoveText))
    ensures ParseCommand(input).RemoveCmd? && ParseCommand(input).task != "" ==>
      var task := ParseCommand(input).task;
      && (task in LoadItems(f) ==> LoadItems(r.0) == RemoveFirst(LoadItems(f), task))
      && (task !in LoadItems(f) ==> r.0 == f)
      && r.1 == Some(if task in LoadItems(f) then "Successfully removed: " + task
                     else task + " not found in tasks")
    ensures ParseCommand(input).ListCmd? ==> r == (f, Some(ListTasks(f)))
    ensures ParseCommand(input).ClearCmd? ==> LoadItems(r.0) == [] && r.1 == Some(ClearedText)
  {
    match ParseCommand(input)
    case AddCmd(task) =>
      if task != "" then
        var (f', listing) := AddTask(f, task);
        (f', Some("Added task: " + task + "\n\n**Your tasks:**\n" + listing))
      else (f, Some(NoTaskText))
    case RemoveCmd(task) =>
      if task != "" then
        var (f', answer) := RemoveTask(f, task);
        (f', Some(answer))
      else (f, Some(NoRemoveText))
    case ListCmd => (f, Some(ListTasks(f)))
    case ClearCmd =>
      var (f', answer) := ClearTasks(f);
      (f', Some(answer))
    case NoCommand => (f, None)
  }

  // ---------------------------------------------------------------------------
  // Properties

  /** Recognition ignores case: inputs that lower-case alike are the same kind
      of command. */
  lemma RecognitionIgnoresCase(a: string, b: string)
    requires Lower(a) == Lower(b)
    ensures ParseCommand(a).AddCmd? == ParseCommand(b).AddCmd?
    ensures ParseCommand(a).RemoveCmd? == ParseCommand(b).RemoveCmd?
    ensures ParseCommand(a).ListCmd? == ParseCommand(b).ListCmd?
    ensures ParseCommand(a).ClearCmd? == ParseCommand(b).ClearCmd?
    ensures ParseCommand(a).NoCommand? == ParseCommand(b).NoCommand?
  {
  }

  /** The argument keeps the case it was typed in: `/add` in any case, blanks,
      then a word without blank ends adds exactly that word. */
  lemma AddKeepsArgumentCase(cmd: string, pad: string, word: string)
    requires |cmd| == 4 && Lower(cmd) == "/add"
    requires AllSpace(pad)
    requires |word| > 0 && !IsSpace(word[0]) && !IsSpace(word[|word| - 1])
    ensures ParseCommand(cmd + pad + word) == AddCmd(word)
  {
    var input := cmd + pad + word;
    assert Lower(input)[..4] == Lower(cmd);
    assert input[4..] == pad + word + [];
    StripPadded(pad, word, []);
  }

  /** "/ADD Buy Milk" adds "Buy Milk". The input is written as the
      concatenation `"/ADD" + " " + "Buy Milk"`, which is the string
      "/ADD Buy Milk". */
  lemma UpperCaseAddExample(f: ListFile)
    ensures LoadItems(Respond(f, "/ADD" + " " + "Buy Milk").0) == LoadItems(f) + ["Buy Milk"]
  {
    UpperCaseAddParses();
  }

  /** The input is the string "/ADD Buy Milk", written as a concatenation. */
  lemma UpperCaseAddParses()
    ensures ParseCommand("/ADD" + " " + "Buy Milk") == AddCmd("Buy Milk")
  {
    LowerUpperAdd();
    var word := "Buy Milk";
    assert word[0] == 'B' && word[7] == 'k';
    assert AllSpace(" ") by {
      assert " "[0] == ' ';
    }
    AddKeepsArgumentCase("/ADD", " ", word);
  }

  lemma LowerUpperAdd()
    ensures Lower("/ADD") == "/add"
  {
    var cmd := "/ADD";
    assert Lower(cmd)[1] == LowerChar('A');
    assert Lower(cmd)[2] == LowerChar('D');
    assert Lower(cmd)[3] == LowerChar('D');
  }

  /** Matching is by prefix only: "/listing" lists. */
  lemma ListingPrefixExample()
    ensures ParseCommand("/listing") == ListCmd
  {
    var low := Lower("/listing");
    assert low == "/listing";
    assert low[..5] == "/list";
    assert low[1] != "/add"[1] && low[1] != "/remove"[1];
  }

  /** Input that does not start with a slash, leading blanks included, is not
      a command, and the list is left alone. */
  lemma NoSlashNoCommand(f: ListFile, input: string)
    requires |input| > 0 && input[0] != '/'
    ensures Respond(f, input) == (f, None)
  {
    var low := Lower(input);
    assert low[0] == LowerChar(input[0]);
    NotStartsWith(low, "/add");
    NotStartsWith(low, "/remove");
    NotStartsWith(low, "/list");
    NotStartsWith(low, "/clear");
    assert ParseCommand(input).NoCommand?;
  }

  lemma NotStartsWith(s: string, p: string)
    requires |s| > 0 && |p| > 0 && s[0] != p[0]
    ensures !StartsWith(s, p)
  {
  }

  /** A bare "/add", or one followed only by blanks, adds nothing. */
  lemma BlankAddAddsNothing(f: ListFile, cmd: string, pad: string)
    requires |cmd| == 4 && Lower(cmd) == "/add"
    requires AllSpace(pad)
    ensures Respond(f, cmd + pad) == (f, Some(NoTaskText))
  {
    var input := cmd + pad;
    assert Lower(input)[..4] == Lower(cmd);
    assert input[4..] == pad;
  }
}

=== FILE: commands.dfy ===
/** The legacy to-do list (`backend/models/commands.py`): a JSON list of
    strings in a file, with commands that add, remove, clear and list its
    entries and answer with text. The file is a value here; each command takes
    it and returns the file it leaves behind together with its answer. */
module Commands {
  import opened Text

  /** The list file: absent until something is first saved. */
  datatype ListFile = Missing | Saved(items: seq<string>)

  const EmptyListText := "Your to-do list is empty"
  const ClearedText := "Tasks cleared"

  /** `load_tasks`: a missing file reads as the empty list. */
  function LoadItems(f: ListFile): seq<string> {
    match f
    case Missing => []
    case Saved(items) => items
  }

  // ---------------------------------------------------------------------------
  // The numbered listing

  /** Line `i` (counting from zero) of the listing: "{i+1}. {item}". */
  function NumberedLine(i: nat, item: string): string {
    NatToString(i + 1) + ". " + item
  }

  function NumberedLines(items: seq<string>): (lines: seq<string>)
    ensures |lines| == |items|
  {
    seq(|items|, i requires 0 <= i < |items| => NumberedLine(i, items[i]))
  }

  /** The listing both `add_task` and `list_tasks` build: the numbered lines
      joined by line feeds, with no line feed after the last. */
  function Listing(items: seq<string>): string {
    Join(NumberedLines(items), '\n')
  }

  predicate NoLineFeeds(items: seq<string>) {
    forall i :: 0 <= i < |items| ==> '\n' !in items[i]
  }

  /** Cutting the listing at its line feeds gives back one numbered line per
      entry, in order, provided no entry holds a line feed itself. */
  lemma ListingLines(items: seq<string>)
    requires |items| > 0
    requires NoLineFeeds(items)
    ensures Split(Listing(items), '\n') == NumberedLines(items)
  {
    var lines := NumberedLines(items);
    forall i | 0 <= i < |lines|
      ensures '\n' !in lines[i]
    {
      var n := NatToString(i + 1);
      assert lines[i] == n + ". " + items[i];
      assert '\n' !in n;
    }
    SplitJoin(lines, '\n');
  }

  /** Appending an entry appends one line to a non-empty listing. */
  lemma ListingSnoc(items: seq<string>, x: string)
    requires |items| > 0
    ensures Listing(items + [x]) == Listing(items) + "\n" + NumberedLine(|items|, x)
  {
    assert NumberedLines(items + [x]) == NumberedLines(items) + [NumberedLine(|items|, x)];
    JoinSnoc(NumberedLines(items), NumberedLine(|items|, x), '\n');
  }

  /** A one-entry listing is that entry's numbered line; with `ListingSnoc`
      this fixes the listing of every list, line feeds inside entries
      included. */
  lemma ListingSingle(x: string)
    ensures Listing([x]) == "1. " + x
  {
    assert NumberedLines([x]) == [NumberedLine(0, x)];
    assert NatToString(1) == "1";
  }

  /** A non-empty listing starts with the number 1. */
  lemma ListingStartsAtOne(items: seq<string>)
    requires |items| > 0
    ensures StartsWith(Listing(items), "1. ")
  {
    var lines := NumberedLines(items);
    assert lines[0] == "1. " + items[0];
    ListingFirstLine(lines);
  }

  lemma ListingFirstLine(lines: seq<string>)
    requires |lines| > 0
    ensures |Join(lines, '\n')| >= |lines[0]|
    ensures Join(lines, '\n')[..|lines[0]|] == lines[0]
  {
    if |lines| > 1 {
      assert Join(lines, '\n') == lines[0] + ([ '\n' ] + Join(lines[1..], '\n'));
    }
  }

  // ---------------------------------------------------------------------------
  // Removing the first occurrence

  /** The position of the first occurrence of `x`. */
  function IndexOf(xs: seq<string>, x: string): (i: nat)
    requires x in xs
    ensures i < |xs| && xs[i] == x
    ensures x !in xs[..i]
    decreases |xs|
  {
    if xs[0] == x then 0
    else
      var j := IndexOf(xs[1..], x);
      assert xs[..j + 1] == [xs[0]] + xs[1..][..j];
      j + 1
  }

  /** `list.remove(x)`: the first occurrence of `x` taken out, everything else
      kept in order. */
  function RemoveFirst(xs: seq<string>, x: string): (r: seq<string>)
    requires x in xs
    ensures r == xs[..IndexOf(xs, x)] + xs[IndexOf(xs, x) + 1..]
    decreases |xs|
  {
    if xs[0] == x then xs[1..]
    else
      var rest := RemoveFirst(xs[1..], x);
      var j := IndexOf(xs[1..], x);
      assert IndexOf(xs, x) == j + 1;
      assert xs[..j + 1] == [xs[0]] + xs[1..][..j];
      assert xs[j + 2..] == xs[1..][j + 1..];
      [xs[0]] + rest
  }

  /** Removing the first occurrence removes exactly one copy of `x`. */
  lemma RemoveFirstOneCopy(xs: seq<string>, x: string)
    requires x in xs
    ensures |RemoveFirst(xs, x)| == |xs| - 1
    ensures multiset(RemoveFirst(xs, x)) == multiset(xs) - multiset{x}
  {
    var i := IndexOf(xs, x);
    var a, b := xs[..i], xs[i + 1..];
    assert xs == a + [x] + b;
    assert RemoveFirst(xs, x) == a + b;
    assert multiset(xs) == multiset(a) + multiset{x} + multiset(b);
    assert multiset(a + b) == multiset(a) + multiset(b);
  }

  // ---------------------------------------------------------------------------
  // Commands

  /** `add_task`: the entry is appended and saved, and the answer is the
      listing of the whole list, exactly what `list_tasks` shows next. The
      last ensures is a corollary of the second and `ListingStartsAtOne`. */
  function AddTask(f: ListFile, task: string): (r: (ListFile, string))
    ensures LoadItems(r.0) == LoadItems(f) + [task]
    ensures r.1 == ListTasks(r.0)
    ensures StartsWith(r.1, "1. ")
  {
    var items := LoadItems(f) + [task];
    ListingStartsAtOne(items);
    (Saved(items), Listing(items))
  }

  /** `remove_task`: the first occurrence goes and the answer says so; an
      entry that is not on the list leaves the file untouched. */
  function RemoveTask(f: ListFile, task: string): (r: (ListFile, string))
    ensures task in LoadItems(f) ==>
      && LoadItems(r.0) == RemoveFirst(LoadItems(f), task)
      && r.1 == "Successfully removed: " + task
    ensures task !in LoadItems(f) ==> r == (f, task + " not found in tasks")
  {
    var items := LoadItems(f);
    if task in items then (Saved(RemoveFirst(items, task)), "Successfully removed: " + task)
    else (f, task + " not found in tasks")
  }

  /** `clear_tasks`: the file holds the empty list afterwards. */
  function ClearTasks(f: ListFile): (r: (ListFile, string))
    ensures LoadItems(r.0) == []
    ensures ListTasks(r.0) == EmptyListText
    ensures r.1 == ClearedText
  {
    (Saved([]), ClearedText)
  }

  /** `list_tasks`: the fixed empty-list text exactly when there is nothing on
      the list (a missing file included), the numbered listing otherwise. The
      "1. " start is a corollary of the listing clause and
      `ListingStartsAtOne`. */
  function ListTasks(f: ListFile): (r: string)
    ensures r == EmptyListText <==> LoadItems(f) == []
    ensures LoadItems(f) != [] ==> StartsWith(r, "1. ")
    ensures LoadItems(f) != [] ==> r == Listing(LoadItems(f))
  {
    var items := LoadItems(f);
    if items != [] then
      ListingStartsAtOne(items);
      assert Listing(items)[0] == '1' && EmptyListText[0] == 'Y';
      Listing(items)
    else
      EmptyListText
  }

  /** After an add, the listing reads back as one numbered line per entry,
      the new entry last. */
  lemma AddThenList(f: ListFile, task: string)
    requires NoLineFeeds(LoadItems(f) + [task])
    ensures var items := LoadItems(f) + [task];
      Split(ListTasks(AddTask(f, task).0), '\n') == NumberedLines(items)
  {
    ListingLines(LoadItems(f) + [task]);
  }

  /** Removing an entry that was just added to an empty list empties it. */
  lemma AddThenRemove(task: string)
    ensures var f := AddTask(Missing, task).0;
      ListTasks(RemoveTask(f, task).0) == EmptyListText
  {
  }
}

=== FILE: task.dfy ===
/** The task record (`backend/models/task.py`): ten fields with defaults, and
    its conversion to and from the key/value dictionary that is stored as JSON.

    The record stores `priority`, `status` and `task_type` as enumerations. The
    Python constructor stores whatever strings it is given; here a dictionary
    naming an unknown value is rejected instead. The accepted names are those
    the constructor's defaults, the balancer's status filter, the parser's
    enumerations, and the front end's and summary service's test for a
    finished task ("done") use. */
module TaskModel {
  import opened Wrappers

  datatype Priority = Low | Medium | High
  datatype Status = Todo | InProgress | Done
  datatype TaskType = Personal | Work | Quick

  /** A stored task. `durationEst` is in minutes. The Python constructor calls
      its first parameter `usr_id` but stores and emits it as `id`; the model
      uses the one name `id` throughout. */
  datatype Task = Task(
    id: string,
    title: string,
    description: Option<string>,
    dueDate: Option<string>,     // YYYY-MM-DD
    dueTime: Option<string>,     // HH:MM
    priority: Priority,
    status: Status,
    createdAt: Option<string>,
    taskType: TaskType,
    durationEst: Option<nat>)

  /** A task built from an identifier and a title alone: the constructor's
      defaults for every other field. */
  function NewTask(id: string, title: string): Task {
    Task(id, title, None, None, None, Medium, Todo, None, Work, None)
  }

  // ---------------------------------------------------------------------------
  // Enumeration names

  function PriorityName(p: Priority): string {
    match p
    case Low => "low"
    case Medium => "medium"
    case High => "high"
  }

  function StatusName(s: Status): string {
    match s
    case Todo => "todo"
    case InProgress => "in_progress"
    case Done => "done"
  }

  function TaskTypeName(t: TaskType): string {
    match t
    case Personal => "personal"
    case Work => "work"
    case Quick => "quick"
  }

  /** Reads a priority name back: defined exactly on the three names, and the
      inverse of `PriorityName` there. */
  function ParsePriority(s: string): (r: Option<Priority>)
    ensures r.Some? ==> PriorityName(r.value) == s
    ensures r.None? <==> forall p: Priority :: PriorityName(p) != s
  {
    if s == "low" then Some(Low)
    else if s == "medium" then Some(Medium)
    else if s == "high" then Some(High)
    else None
  }

  /** Reads a status name back: defined exactly on the three names, and the
      inverse of `StatusName` there. */
  function ParseStatus(s: string): (r: Option<Status>)
    ensures r.Some? ==> StatusName(r.value) == s
    ensures r.None? <==> forall st: Status :: StatusName(st) != s
  {
    if s == "todo" then Some(Todo)
    else if s == "in_progress" then Some(InProgress)
    else if s == "done" then Some(Done)
    else None
  }

  /** Reads a category name back: defined exactly on the three names, and the
      inverse of `TaskTypeName` there. */
  function ParseTaskType(s: string): (r: Option<TaskType>)
    ensures r.Some? ==> TaskTypeName(r.value) == s
    ensures r.None? <==> forall t: TaskType :: TaskTypeName(t) != s
  {
    if s == "personal" then Some(Personal)
    else if s == "work" then Some(Work)
    else if s == "quick" then Some(Quick)
    else None
  }

  // ---------------------------------------------------------------------------
  // Dictionaries

  /** A JSON value as it can appear in a stored task dictionary. */
  datatype Value = Str(s: string) | Int(n: int) | Null

  type Fields = map<string, Value>

  const IdKey := "id"
  const TitleKey := "title"
  const DescriptionKey := "description"
  const DueDateKey := "due_date"
  const DueTimeKey := "due_time"
  const PriorityKey := "priority"
  const StatusKey := "status"
  const CreatedAtKey := "created_at"
  const TaskTypeKey := "task_type"
  const DurationKey := "duration_est"

  /** The keyword parameters the constructor accepts, with `idKey` naming the
      identifier parameter. */
  function FieldNames(idKey: string): set<string> {
    {idKey, TitleKey, DescriptionKey, DueDateKey, DueTimeKey, PriorityKey,
     StatusKey, CreatedAtKey, TaskTypeKey, DurationKey}
  }

  function OptStr(o: Option<string>): Value {
    match o
    case Some(s) => Str(s)
    case None => Null
  }

  function OptNat(o: Option<nat>): Value {
    match o
    case Some(n) => Int(n)
    case None => Null
  }

  /** `Task.to_dict`: one entry per field, ten in all. */
  function ToDict(t: Task): (m: Fields)
    ensures m.Keys == FieldNames(IdKey)
  {
    map[IdKey := Str(t.id),
        TitleKey := Str(t.title),
        DescriptionKey := OptStr(t.description),
        DueDateKey := OptStr(t.dueDate),
        DueTimeKey := OptStr(t.dueTime),
        PriorityKey := Str(PriorityName(t.priority)),
        StatusKey := Str(StatusName(t.status)),
        CreatedAtKey := OptStr(t.createdAt),
        TaskTypeKey := Str(TaskTypeName(t.taskType)),
        DurationKey := OptNat(t.durationEst)]
  }

  /** The dictionary entries the constructor's defaults stand for. */
  function DefaultFields(): Fields {
    map[DescriptionKey := Null,
        DueDateKey := Null,
        DueTimeKey := Null,
        PriorityKey := Str("medium"),
        StatusKey := Str("todo"),
        CreatedAtKey := Null,
        TaskTypeKey := Str("work"),
        DurationKey := Null]
  }

  /** Why a dictionary does not make a task. Python raises `TypeError` for the
      first two. */
  datatype FieldError =
    | UnexpectedField            // a key that is not a constructor parameter
    | MissingField(key: string)  // a required parameter without a value
    | BadValue(key: string)      // a value of the wrong kind, or an unknown name

  /** Whether `v` is an acceptable value for key `k`. */
  predicate ValidValue(idKey: string, k: string, v: Value) {
    if k == idKey || k == TitleKey then v.Str?
    else if k == PriorityKey then v.Str? && ParsePriority(v.s).Some?
    else if k == StatusKey then v.Str? && ParseStatus(v.s).Some?
    else if k == TaskTypeKey then v.Str? && ParseTaskType(v.s).Some?
    else if k == DurationKey then v.Null? || (v.Int? && v.n >= 0)
    else v.Null? || v.Str?
  }

  function StrField(m: Fields, k: string): (r: Result<string, FieldError>)
    requires k in m
  {
    match m[k]
    case Str(s) => Success(s)
    case _ => Failure(BadValue(k))
  }

  function OptStrField(m: Fields, k: string): (r: Result<Option<string>, FieldError>)
  {
    if k !in m then Success(None)
    else match m[k]
      case Str(s) => Success(Some(s))
      case Null => Success(None)
      case Int(_) => Failure(BadValue(k))
  }

  function EnumField<T>(m: Fields, k: string, parse: string -> Option<T>, default: T): (r: Result<T, FieldError>)
  {
    if k !in m then Success(default)
    else match m[k]
      case Str(s) => if parse(s).Some? then Success(parse(s).value) else Failure(BadValue(k))
      case _ => Failure(BadValue(k))
  }

  function DurationField(m: Fields): (r: Result<Option<nat>, FieldError>)
  {
    if DurationKey !in m then Success(None)
    else match m[DurationKey]
      case Null => Success(None)
      case Int(n) => if n >= 0 then Success(Some(n)) else Failure(BadValue(DurationKey))
      case Str(_) => Failure(BadValue(DurationKey))
  }

  /** `Task(**info)` with the identifier parameter called `idKey`: every key must
      be a parameter, the identifier and the title must be present, and every
      value must be of the kind its field holds. The record produced agrees with
      `m` on every key `m` has and holds the defaults elsewhere. */
  function FromDictWith(m: Fields, idKey: string): (r: Result<Task, FieldError>)
    requires idKey !in DefaultFields() && idKey != TitleKey
    ensures r.Success? <==>
      && m.Keys <= FieldNames(idKey)
      && idKey in m && TitleKey in m
      && forall k :: k in m ==> ValidValue(idKey, k, m[k])
  {
    if !(m.Keys <= FieldNames(idKey)) then Failure(UnexpectedField)
    else if idKey !in m then Failure(MissingField(idKey))
    else if TitleKey !in m then Failure(MissingField(TitleKey))
    else
      var id :- StrField(m, idKey);
      var title :- StrField(m, TitleKey);
      var description :- OptStrField(m, DescriptionKey);
      var dueDate :- OptStrField(m, DueDateKey);
      var dueTime :- OptStrField(m, DueTimeKey);
      var priority :- EnumField(m, PriorityKey, ParsePriority, Medium);
      var status :- EnumField(m, StatusKey, ParseStatus, Todo);
      var createdAt :- OptStrField(m, CreatedAtKey);
      var taskType :- EnumField(m, TaskTypeKey, ParseTaskType, Work);
      var durationEst :- DurationField(m);
      Success(Task(id, title, description, dueDate, dueTime, priority, status,
                   createdAt, taskType, durationEst))
  }

  /** `Task.from_dict` with the identifier key named `id`, as `to_dict` emits it. */
  function FromDict(m: Fields): (r: Result<Task, FieldError>)
    ensures r.Success? <==>
      && m.Keys <= FieldNames(IdKey)
      && IdKey in m && TitleKey in m
      && forall k :: k in m ==> ValidValue(IdKey, k, m[k])
  {
    FromDictWith(m, IdKey)
  }

  /** `Task.from_dict` as written: the constructor's identifier parameter is
      `usr_id`, so the dictionary must name it that way. */
  function FromDictAsWritten(m: Fields): (r: Result<Task, FieldError>)
    ensures r.Success? ==> "usr_id" in m && IdKey !in m
  {
    FromDictWith(m, "usr_id")
  }

  // ---------------------------------------------------------------------------
  // Properties

  /** `from_dict(to_dict(t)) == t`: storing a task and reading it back gives the
      same task. */
  lemma FromDictToDict(t: Task)
    ensures FromDict(ToDict(t)) == Success(t)
  {
    var m := ToDict(t);
    assert StrField(m, IdKey) == Success(t.id);
    assert StrField(m, TitleKey) == Success(t.title);
    assert OptStrField(m, DescriptionKey) == Success(t.description) by {
      OptStrFieldOf(m, DescriptionKey, t.description);
    }
    assert OptStrField(m, DueDateKey) == Success(t.dueDate) by {
      OptStrFieldOf(m, DueDateKey, t.dueDate);
    }
    assert OptStrField(m, DueTimeKey) == Success(t.dueTime) by {
      OptStrFieldOf(m, DueTimeKey, t.dueTime);
    }
    assert OptStrField(m, CreatedAtKey) == Success(t.createdAt) by {
      OptStrFieldOf(m, CreatedAtKey, t.createdAt);
    }
    assert EnumField(m, PriorityKey, ParsePriority, Medium) == Success(t.priority) by {
      assert m[PriorityKey] == Str(PriorityName(t.priority));
      assert ParsePriority(PriorityName(t.priority)).Some?;
    }
    assert EnumField(m, StatusKey, ParseStatus, Todo) == Success(t.status) by {
      assert m[StatusKey] == Str(StatusName(t.status));
      assert ParseStatus(StatusName(t.status)).Some?;
    }
    assert EnumField(m, TaskTypeKey, ParseTaskType, Work) == Success(t.taskType) by {
      assert m[TaskTypeKey] == Str(TaskTypeName(t.taskType));
      assert ParseTaskType(TaskTypeName(t.taskType)).Some?;
    }
    assert DurationField(m) == Success(t.durationEst) by {
      assert m[DurationKey] == OptNat(t.durationEst);
    }
  }

  lemma OptStrFieldOf(m: Fields, k: string, o: Option<string>)
    requires k in m && m[k] == OptStr(o)
    ensures OptStrField(m, k) == Success(o)
  {
  }

  /** `to_dict` loses nothing: two tasks with the same dictionary are equal. */
  lemma ToDictInjective(a: Task, b: Task)
    requires ToDict(a) == ToDict(b)
    ensures a == b
  {
    FromDictToDict(a);
    FromDictToDict(b);
  }

  /** The task read from a dictionary, written back, is the defaults overridden
      by the dictionary: every key present keeps its value and every absent key
      takes the constructor's default. */
  /** Which field each key fills: every key of the dictionary, over the
      constructor's defaults, holds the field of the same name in the task
      it makes. With `FromDictToDict` this also fixes every entry of
      `ToDict(t)`. */
  lemma FromDictFields(m: Fields)
    requires FromDict(m).Success?
    ensures var t := FromDict(m).value;
      var d := DefaultFields() + m;
      && d[IdKey] == Str(t.id)
      && d[TitleKey] == Str(t.title)
      && d[DescriptionKey] == OptStr(t.description)
      && d[DueDateKey] == OptStr(t.dueDate)
      && d[DueTimeKey] == OptStr(t.dueTime)
      && d[PriorityKey] == Str(PriorityName(t.priority))
      && d[StatusKey] == Str(StatusName(t.status))
      && d[CreatedAtKey] == OptStr(t.createdAt)
      && d[TaskTypeKey] == Str(TaskTypeName(t.taskType))
      && d[DurationKey] == OptNat(t.durationEst)
  {
    ToDictFromDict(m);
  }

  lemma ToDictFromDict(m: Fields)
    requires FromDict(m).Success?
    ensures ToDict(FromDict(m).value) == DefaultFields() + m
  {
    var t := FromDict(m).value;
    var d := DefaultFields() + m;
    assert ValidValue(IdKey, DescriptionKey, d[DescriptionKey]);
    assert d[IdKey] == Str(t.id);
    assert d[TitleKey] == Str(t.title);
    assert d[DescriptionKey] == OptStr(t.description) by {
      OptStrFieldValue(m, DescriptionKey);
    }
    assert d[DueDateKey] == OptStr(t.dueDate) by {
      OptStrFieldValue(m, DueDateKey);
    }
    assert d[DueTimeKey] == OptStr(t.dueTime) by {
      OptStrFieldValue(m, DueTimeKey);
    }
    assert d[CreatedAtKey] == OptStr(t.createdAt) by {
      OptStrFieldValue(m, CreatedAtKey);
    }
    assert d[PriorityKey] == Str(PriorityName(t.priority));
    assert d[StatusKey] == Str(StatusName(t.status));
    assert d[TaskTypeKey] == Str(TaskTypeName(t.taskType));
    assert d[DurationKey] == OptNat(t.durationEst);
    assert ToDict(t).Keys == d.Keys;
  }

  lemma OptStrFieldValue(m: Fields, k: string)
    requires OptStrField(m, k).Success?
    requires k in DefaultFields() && DefaultFields()[k] == Null
    ensures (DefaultFields() + m)[k] == OptStr(OptStrField(m, k).value)
  {
  }

  /** A dictionary holding only an identifier and a title gives a task with the
      constructor's defaults everywhere else. */
  lemma MinimalDictDefaults(id: string, title: string)
    ensures FromDict(map[IdKey := Str(id), TitleKey := Str(title)]) == Success(NewTask(id, title))
  {
  }

  /** Keys that are not constructor parameters are refused, among them the
      calendar reference the calendar route writes back and the duration key
      the parser emits. */
  lemma ForeignKeysRejected(m: Fields)
    requires "calendar_event_id" in m || "duration_estimate" in m
    ensures FromDict(m) == Failure(UnexpectedField)
  {
  }

  /** As written, `from_dict` refuses every dictionary `to_dict` produces: the
      dictionary names the identifier `id`, the constructor only accepts
      `usr_id`. */
  lemma AsWrittenRejectsOwnOutput(t: Task)
    ensures FromDictAsWritten(ToDict(t)) == Failure(UnexpectedField)
  {
    assert IdKey in ToDict(t);
    assert IdKey !in FieldNames("usr_id");
  }
}

=== FILE: task_store.dfy ===
/** The JSON-file task store (`TaskService` in
    `backend/services/tasks_service.py`). The file is a value here: the ordered
    sequence of task dictionaries it holds. Every operation reads the whole
    file, and a mutating operation returns the whole file it writes back. */
module TaskStore {
  import opened Wrappers
  import opened TaskModel

  /** The content of the tasks file: a JSON list of task dictionaries. */
  type StoreFile = seq<Fields>

  /** `Corrupt`: a stored dictionary does not make a task, so loading fails.
      `Invalid`: the dictionary an operation builds does not make a task. */
  datatype StoreError = Corrupt(cause: FieldError) | Invalid(cause: FieldError)

  // ---------------------------------------------------------------------------
  // The file

  /** `_ensure_file_exists`: a missing file is created holding the empty list. */
  function InitialFile(): (f: StoreFile)
    ensures LoadTasks(f) == Success([])
  {
    []
  }

  /** `_load_tasks_from_file`: every dictionary, in order, made into a task; the
      first one that does not make a task is the error. */
  function LoadTasks(f: StoreFile): (r: Result<seq<Task>, FieldError>)
    ensures r.Success? <==> forall i :: 0 <= i < |f| ==> FromDict(f[i]).Success?
    ensures r.Success? ==> |r.value| == |f|
    ensures r.Success? ==> forall i :: 0 <= i < |f| ==> FromDict(f[i]) == Success(r.value[i])
    decreases |f|
  {
    if f == [] then Success([])
    else
      var t :- FromDict(f[0]);
      var rest :- LoadTasks(f[1..]);
      Success([t] + rest)
  }

  /** `_save_tasks_to_file`: every task as its dictionary, in order. */
  function SaveTasks(ts: seq<Task>): (f: StoreFile)
    ensures |f| == |ts|
  {
    seq(|ts|, i requires 0 <= i < |ts| => ToDict(ts[i]))
  }

  /** Reading back what was saved gives the same tasks in the same order. */
  lemma LoadSave(ts: seq<Task>)
    ensures LoadTasks(SaveTasks(ts)) == Success(ts)
  {
    var f := SaveTasks(ts);
    forall i | 0 <= i < |f|
      ensures FromDict(f[i]) == Success(ts[i])
    {
      FromDictToDict(ts[i]);
    }
    var r := LoadTasks(f);
    assert r.Success?;
    assert forall i :: 0 <= i < |ts| ==> r.value[i] == ts[i];
    assert r.value == ts;
  }

  // ---------------------------------------------------------------------------
  // Identifiers in a task list

  predicate HasId(ts: seq<Task>, id: string) {
    exists i :: 0 <= i < |ts| && ts[i].id == id
  }

  predicate UniqueIds(ts: seq<Task>) {
    forall i, j :: 0 <= i < j < |ts| ==> ts[i].id != ts[j].id
  }

  /** The position of the first task whose identifier is `id`, if any. */
  function FirstIndex(ts: seq<Task>, id: string): (r: Option<nat>)
    ensures r.None? <==> !HasId(ts, id)
    ensures r.Some? ==> r.value < |ts| && ts[r.value].id == id
    ensures r.Some? ==> forall j :: 0 <= j < r.value ==> ts[j].id != id
    decreases |ts|
  {
    if ts == [] then None
    else if ts[0].id == id then Some(0)
    else
      var rest := FirstIndex(ts[1..], id);
      assert HasId(ts[1..], id) ==> HasId(ts, id);
      if rest.Some? then Some(rest.value + 1) else None
  }

  /** The tasks whose identifier is not `id`, in their original order. */
  function WithoutId(ts: seq<Task>, id: string): (r: seq<Task>)
    ensures forall t :: t in r <==> t in ts && t.id != id
    ensures |r| < |ts| <==> HasId(ts, id)
    ensures |r| <= |ts|
    decreases |ts|
  {
    if ts == [] then []
    else
      var rest := WithoutId(ts[1..], id);
      assert HasId(ts[1..], id) ==> HasId(ts, id);
      assert ts == [ts[0]] + ts[1..];
      if ts[0].id == id then rest else [ts[0]] + rest
  }

  /** Filtering works piecewise, so it keeps the relative order of the tasks it
      keeps. */
  lemma {:induction false} WithoutIdAppend(a: seq<Task>, b: seq<Task>, id: string)
    ensures WithoutId(a + b, id) == WithoutId(a, id) + WithoutId(b, id)
    decreases |a|
  {
    if a == [] {
      assert a + b == b;
    } else {
      assert (a + b)[1..] == a[1..] + b;
      WithoutIdAppend(a[1..], b, id);
    }
  }

  /** The first task with identifier `id`, scanning in stored order. */
  function FindTask(ts: seq<Task>, id: string): (r: Option<Task>)
    ensures r.None? <==> !HasId(ts, id)
    ensures r.Some? ==> r.value == ts[FirstIndex(ts, id).value]
    decreases |ts|
  {
    if ts == [] then None
    else if ts[0].id == id then Some(ts[0])
    else
      assert HasId(ts[1..], id) ==> HasId(ts, id);
      FindTask(ts[1..], id)
  }

  // ---------------------------------------------------------------------------
  // Operations

  /** `add_task`: the draft dictionary with `newId` as its identifier becomes a
      task, appended after every stored task. `newId` stands for the fresh
      `uuid4` the service draws. */
  function AddTask(f: StoreFile, data: Fields, newId: string): (r: Result<(StoreFile, Task), StoreError>)
    ensures r.Success? <==> LoadTasks(f).Success? && FromDict(data[IdKey := Str(newId)]).Success?
    ensures LoadTasks(f).Failure? ==> r == Failure(Corrupt(LoadTasks(f).error))
    ensures LoadTasks(f).Success? && FromDict(data[IdKey := Str(newId)]).Failure? ==>
      r == Failure(Invalid(FromDict(data[IdKey := Str(newId)]).error))
    ensures r.Success? ==>
      && r.value.1.id == newId
      && ToDict(r.value.1) == DefaultFields() + data[IdKey := Str(newId)]
      && LoadTasks(r.value.0) == Success(LoadTasks(f).value + [r.value.1])
  {
    var ts :- LoadTasks(f).MapError(e => Corrupt(e));
    var fields := data[IdKey := Str(newId)];
    match FromDict(fields)
    case Failure(e) => Failure(Invalid(e))
    case Success(t) =>
      ToDictFromDict(fields);
      LoadSave(ts + [t]);
      Success((SaveTasks(ts + [t]), t))
  }

  /** `delete_task`: drops every task with identifier `id` and reports whether
      there was one. When there was none the file is not rewritten. */
  function DeleteTask(f: StoreFile, id: string): (r: Result<(StoreFile, bool), StoreError>)
    ensures r.Success? <==> LoadTasks(f).Success?
    ensures LoadTasks(f).Failure? ==> r == Failure(Corrupt(LoadTasks(f).error))
    ensures r.Success? ==> (r.value.1 <==> HasId(LoadTasks(f).value, id))
    ensures r.Success? && !r.value.1 ==> r.value.0 == f
    ensures r.Success? && r.value.1 ==>
      LoadTasks(r.value.0) == Success(WithoutId(LoadTasks(f).value, id))
  {
    var ts :- LoadTasks(f).MapError(e => Corrupt(e));
    var kept := WithoutId(ts, id);
    if |kept| < |ts| then
      LoadSave(kept);
      Success((SaveTasks(kept), true))
    else
      Success((f, false))
  }

  /** `get_task`: the first stored task with identifier `id`, or nothing. */
  function GetTask(f: StoreFile, id: string): (r: Result<Option<Task>, StoreError>)
    ensures r.Success? <==> LoadTasks(f).Success?
    ensures LoadTasks(f).Failure? ==> r == Failure(Corrupt(LoadTasks(f).error))
    ensures r.Success? ==> (r.value.None? <==> !HasId(LoadTasks(f).value, id))
    ensures r.Success? && r.value.Some? ==>
      var ts := LoadTasks(f).value;
      r.value.value == ts[FirstIndex(ts, id).value]
  {
    var ts :- LoadTasks(f).MapError(e => Corrupt(e));
    Success(FindTask(ts, id))
  }

  /** `update_task`: the first task with identifier `id` is written out as a
      dictionary, the updates are laid over it, and the result is read back as
      a task in the same position. An absent identifier leaves the file as it
      was. */
  function UpdateTask(f: StoreFile, id: string, updates: Fields): (r: Result<(StoreFile, Option<Task>), StoreError>)
    ensures LoadTasks(f).Failure? ==> r == Failure(Corrupt(LoadTasks(f).error))
    ensures LoadTasks(f).Success? && !HasId(LoadTasks(f).value, id) ==> r == Success((f, None))
    ensures LoadTasks(f).Success? && HasId(LoadTasks(f).value, id) ==>
      var ts := LoadTasks(f).value;
      var i := FirstIndex(ts, id).value;
      && (r.Success? <==> FromDict(ToDict(ts[i]) + updates).Success?)
      && (r.Failure? ==> r.error == Invalid(FromDict(ToDict(ts[i]) + updates).error))
      && (r.Success? ==>
            && r.value.1.Some?
            && ToDict(r.value.1.value) == ToDict(ts[i]) + updates
            && LoadTasks(r.value.0) == Success(ts[i := r.value.1.value]))
  {
    var ts :- LoadTasks(f).MapError(e => Corrupt(e));
    match FirstIndex(ts, id)
    case None => Success((f, None))
    case Some(i) =>
      var merged := ToDict(ts[i]) + updates;
      match FromDict(merged)
      case Failure(e) => Failure(Invalid(e))
      case Success(t) =>
        MergedHasAllKeys(ts[i], updates);
        ToDictFromDict(merged);
        LoadSave(ts[i := t]);
        Success((SaveTasks(ts[i := t]), Some(t)))
  }

  /** `clear_tasks`: the file holds the empty list afterwards, whatever it held
      before (it is not read first). */
  function ClearTasks(f: StoreFile): (r: StoreFile)
    ensures LoadTasks(r) == Success([])
  {
    []
  }

  /** `get_all_tasks`: every stored task in stored order. */
  function GetAllTasks(f: StoreFile): (r: Result<seq<Task>, StoreError>)
    ensures r.Success? <==> forall i :: 0 <= i < |f| ==> FromDict(f[i]).Success?
    ensures r.Success? ==> |r.value| == |f|
    ensures r.Success? ==> forall i :: 0 <= i < |f| ==> FromDict(f[i]) == Success(r.value[i])
  {
    LoadTasks(f).MapError(e => Corrupt(e))
  }

  // ---------------------------------------------------------------------------
  // Helpers for the proofs

  /** The defaults add nothing to a dictionary that already has every field. */
  lemma MergedHasAllKeys(t: Task, updates: Fields)
    ensures DefaultFields() + (ToDict(t) + updates) == ToDict(t) + updates
  {
    var m := ToDict(t) + updates;
    assert DefaultFields().Keys <= m.Keys;
    assert (DefaultFields() + m).Keys == m.Keys;
  }

  // ---------------------------------------------------------------------------
  // Properties

  /** A task just added is the one `get_task` finds under its identifier, when
      that identifier was fresh. */
  lemma AddThenGet(f: StoreFile, data: Fields, newId: string)
    requires LoadTasks(f).Success? && FromDict(data[IdKey := Str(newId)]).Success?
    requires !HasId(LoadTasks(f).value, newId)
    ensures AddTask(f, data, newId).Success?
    ensures GetTask(AddTask(f, data, newId).value.0, newId) ==
      Success(Some(AddTask(f, data, newId).value.1))
  {
    var ts := LoadTasks(f).value;
    var r := AddTask(f, data, newId).value;
    var ts' := ts + [r.1];
    assert LoadTasks(r.0) == Success(ts');
    FindAppendedFresh(ts, r.1);
  }

  lemma FindAppendedFresh(ts: seq<Task>, t: Task)
    requires !HasId(ts, t.id)
    ensures FindTask(ts + [t], t.id) == Some(t)
  {
    var ts' := ts + [t];
    assert ts'[|ts|] == t;
    assert HasId(ts', t.id);
    var k := FirstIndex(ts', t.id).value;
    assert k == |ts|;
  }

  /** Adding under a fresh identifier keeps identifiers pairwise distinct. */
  lemma AddKeepsUniqueIds(f: StoreFile, data: Fields, newId: string)
    requires LoadTasks(f).Success? && FromDict(data[IdKey := Str(newId)]).Success?
    requires UniqueIds(LoadTasks(f).value)
    requires !HasId(LoadTasks(f).value, newId)
    ensures AddTask(f, data, newId).Success?
    ensures UniqueIds(LoadTasks(AddTask(f, data, newId).value.0).value)
  {
  }

  /** Deleting keeps identifiers pairwise distinct, and the deleted identifier
      is gone. */
  lemma DeleteKeepsUniqueIds(f: StoreFile, id: string)
    requires LoadTasks(f).Success? && UniqueIds(LoadTasks(f).value)
    ensures var ts' := LoadTasks(DeleteTask(f, id).value.0).value;
      UniqueIds(ts') && !HasId(ts', id)
  {
    var ts := LoadTasks(f).value;
    if HasId(ts, id) {
      var kept := WithoutId(ts, id);
      WithoutIdKeepsUnique(ts, id);
      forall j | 0 <= j < |kept|
        ensures kept[j].id != id
      {
        assert kept[j] in kept;
      }
    }
  }

  lemma {:induction false} WithoutIdKeepsUnique(ts: seq<Task>, id: string)
    requires UniqueIds(ts)
    ensures UniqueIds(WithoutId(ts, id))
    decreases |ts|
  {
    if ts != [] {
      var rest := WithoutId(ts[1..], id);
      WithoutIdKeepsUnique(ts[1..], id);
      if ts[0].id != id {
        forall j | 0 <= j < |rest|
          ensures rest[j].id != ts[0].id
        {
          assert rest[j] in ts[1..];
        }
      }
    }
  }

  /** An update that does not name the identifier keeps the identifier of the
      task it changes, so identifiers stay pairwise distinct. */
  lemma UpdateKeepsUniqueIds(f: StoreFile, id: string, updates: Fields)
    requires UpdateTask(f, id, updates).Success?
    requires UniqueIds(LoadTasks(f).value)
    requires IdKey !in updates
    ensures UniqueIds(LoadTasks(UpdateTask(f, id, updates).value.0).value)
  {
    var ts := LoadTasks(f).value;
    if HasId(ts, id) {
      var i := FirstIndex(ts, id).value;
      var r := UpdateTask(f, id, updates).value;
      var t := r.1.value;
      MergeKeepsId(ts[i], t, updates);
      assert LoadTasks(r.0).value == ts[i := t];
    }
  }

  lemma MergeKeepsId(before: Task, t: Task, updates: Fields)
    requires ToDict(t) == ToDict(before) + updates
    requires IdKey !in updates
    ensures t.id == before.id
  {
    assert ToDict(t)[IdKey] == ToDict(before)[IdKey];
  }

  /** Marking a task done changes its status and nothing else, and touches no
      other task. */
  lemma UpdateStatusOnly(f: StoreFile, id: string)
    requires LoadTasks(f).Success? && HasId(LoadTasks(f).value, id)
    ensures var ts := LoadTasks(f).value;
      var i := FirstIndex(ts, id).value;
      UpdateTask(f, id, map[StatusKey := Str("done")]) ==
        Success((SaveTasks(ts[i := ts[i].(status := Done)]), Some(ts[i].(status := Done))))
  {
    var ts := LoadTasks(f).value;
    var i := FirstIndex(ts, id).value;
    var done := ts[i].(status := Done);
    MarkDoneDict(ts[i]);
    FromDictToDict(done);
  }

  lemma MarkDoneDict(t: Task)
    ensures ToDict(t) + map[StatusKey := Str("done")] == ToDict(t.(status := Done))
  {
    var a := ToDict(t) + map[StatusKey := Str("done")];
    var b := ToDict(t.(status := Done));
    assert a.Keys == b.Keys;
    forall k | k in a
      ensures a[k] == b[k]
    {
    }
  }

  /** An update succeeds exactly when every key it names is a task field and
      every value it gives fits that field. */
  lemma UpdateValidity(t: Task, updates: Fields)
    ensures FromDict(ToDict(t) + updates).Success? <==>
      updates.Keys <= FieldNames(IdKey) && forall k :: k in updates ==> ValidValue(IdKey, k, updates[k])
  {
    var m := ToDict(t) + updates;
    FromDictToDict(t);
    if updates.Keys <= FieldNames(IdKey) && forall k :: k in updates ==> ValidValue(IdKey, k, updates[k]) {
      forall k | k in m
        ensures ValidValue(IdKey, k, m[k])
      {
        if k !in updates {
          assert ValidValue(IdKey, k, ToDict(t)[k]);
        }
      }
    }
  }
}

=== FILE: text.dfy ===
/** The string operations the chatbot relies on, restricted to ASCII:
    `str.lower`, `str.strip`, `str.startswith`, `str(n)` for a natural number,
    and `sep.join(lines)` together with its inverse, splitting on a separator. */
module Text {

  // ---------------------------------------------------------------------------
  // Case

  predicate IsUpper(c: char) {
    'A' <= c <= 'Z'
  }

  /** Lower-cases an ASCII capital and leaves every other character alone. */
  function LowerChar(c: char): char {
    if IsUpper(c) then (c as int + 32) as char else c
  }

  /** `s.lower()` for ASCII text: same length, every capital replaced by its
      small letter, every other character where it was. */
  function Lower(s: string): (r: string)
    ensures |r| == |s|
    ensures forall i :: 0 <= i < |r| ==> !IsUpper(r[i])
    ensures forall i :: 0 <= i < |s| && IsUpper(s[i]) ==> r[i] as int == s[i] as int + 32
    ensures forall i :: 0 <= i < |s| && !IsUpper(s[i]) ==> r[i] == s[i]
  {
    seq(|s|, i requires 0 <= i < |s| => LowerChar(s[i]))
  }

  /** `s.startswith(p)`. */
  predicate StartsWith(s: string, p: string) {
    |p| <= |s| && s[..|p|] == p
  }

  // ---------------------------------------------------------------------------
  // Whitespace

  /** The characters Python's `str.isspace` accepts below 0x80: tab, line feed,
      vertical tab, form feed, carriage return, the four separators 0x1C-0x1F
      and the space. */
  predicate IsSpace(c: char) {
    ('\t' <= c <= '\r') || ('\U{1C}' <= c <= '\U{1F}') || c == ' '
  }

  predicate AllSpace(s: string) {
    forall i :: 0 <= i < |s| ==> IsSpace(s[i])
  }

  /** `s.lstrip()`: a suffix of `s` that does not start with whitespace and
      whose removed prefix is all whitespace. */
  function TrimStart(s: string): (r: string)
    ensures |r| <= |s| && r == s[|s| - |r|..]
    ensures AllSpace(s[..|s| - |r|])
    ensures |r| > 0 ==> !IsSpace(r[0])
    decreases |s|
  {
    if |s| > 0 && IsSpace(s[0]) then TrimStart(s[1..]) else s
  }

  /** `s.rstrip()`: a prefix of `s` that does not end with whitespace and whose
      removed suffix is all whitespace. */
  function TrimEnd(s: string): (r: string)
    ensures |r| <= |s| && r == s[..|r|]
    ensures AllSpace(s[|r|..])
    ensures |r| > 0 ==> !IsSpace(r[|r| - 1])
    decreases |s|
  {
    if |s| > 0 && IsSpace(s[|s| - 1]) then TrimEnd(s[..|s| - 1]) else s
  }

  /** `s.strip()`: the result neither starts nor ends with whitespace, and it is
      empty exactly when `s` is all whitespace. */
  function Strip(s: string): (r: string)
    ensures |r| <= |s|
    ensures |r| > 0 ==> !IsSpace(r[0]) && !IsSpace(r[|r| - 1])
    ensures r == [] <==> AllSpace(s)
  {
    StripEnds(s);
    TrimEnd(TrimStart(s))
  }

  lemma StripEnds(s: string)
    ensures var r := TrimEnd(TrimStart(s));
      (r == [] <==> AllSpace(s)) && (|r| > 0 ==> !IsSpace(r[0]))
  {
    var t := TrimStart(s);
    TrimStartEmpty(s);
    TrimEndEmpty(t);
    if |TrimEnd(t)| > 0 {
      assert TrimEnd(t)[0] == t[0];
    }
  }

  lemma TrimStartEmpty(s: string)
    ensures TrimStart(s) == [] <==> AllSpace(s)
  {
    var t := TrimStart(s);
    var k := |s| - |t|;
    if t == [] {
      assert s[..k] == s;
    } else {
      assert t[0] == s[k];
    }
  }

  lemma TrimEndEmpty(t: string)
    ensures TrimEnd(t) == [] <==> AllSpace(t)
  {
    var r := TrimEnd(t);
    if r == [] {
      assert t[|r|..] == t;
    } else {
      assert r[|r| - 1] == t[|r| - 1];
    }
  }

  /** Stripping is determined by the text between the padding: whatever
      whitespace surrounds a word with non-blank ends is removed and nothing
      else. */
  lemma StripPadded(lead: string, w: string, trail: string)
    requires AllSpace(lead) && AllSpace(trail)
    requires |w| > 0 ==> !IsSpace(w[0]) && !IsSpace(w[|w| - 1])
    ensures Strip(lead + w + trail) == w
  {
    if w == [] {
      var s := lead + w + trail;
      forall i | 0 <= i < |s|
        ensures IsSpace(s[i])
      {
        if i >= |lead| {
          assert s[i] == trail[i - |lead|];
        }
      }
    } else {
      TrimStartPadded(lead, w + trail);
      assert lead + w + trail == lead + (w + trail);
      TrimEndPadded(w, trail);
    }
  }

  lemma {:induction false} TrimStartPadded(lead: string, rest: string)
    requires AllSpace(lead)
    requires |rest| > 0 ==> !IsSpace(rest[0])
    ensures TrimStart(lead + rest) == rest
    decreases |lead|
  {
    if lead != [] {
      assert (lead + rest)[1..] == lead[1..] + rest;
      TrimStartPadded(lead[1..], rest);
    } else {
      assert lead + rest == rest;
    }
  }

  lemma {:induction false} TrimEndPadded(w: string, trail: string)
    requires |w| > 0 && !IsSpace(w[|w| - 1])
    requires AllSpace(trail)
    ensures TrimEnd(w + trail) == w
    decreases |trail|
  {
    if trail != [] {
      var n := |trail| - 1;
      assert (w + trail)[..|w + trail| - 1] == w + trail[..n];
      TrimEndPadded(w, trail[..n]);
    } else {
      assert w + trail == w;
    }
  }

  /** Stripping twice is stripping once. */
  lemma StripIdempotent(s: string)
    ensures Strip(Strip(s)) == Strip(s)
  {
    var w := Strip(s);
    StripPadded([], w, []);
    assert [] + w + [] == w;
  }

  // ---------------------------------------------------------------------------
  // Decimal numerals

  predicate IsDigit(c: char) {
    '0' <= c <= '9'
  }

  function DigitChar(d: nat): (c: char)
    requires d < 10
    ensures IsDigit(c)
  {
    "0123456789"[d]
  }

  function DigitValue(c: char): nat
    requires IsDigit(c)
  {
    c as int - '0' as int
  }

  /** `str(n)` for a natural number: a non-empty run of decimal digits without
      a leading zero. */
  function NatToString(n: nat): (r: string)
    ensures |r| > 0
    ensures forall i :: 0 <= i < |r| ==> IsDigit(r[i])
    ensures |r| > 1 ==> r[0] != '0'
    decreases n
  {
    if n < 10 then [DigitChar(n)] else NatToString(n / 10) + [DigitChar(n % 10)]
  }

  /** The value of a run of decimal digits (`int(s)`). */
  function ParseDigits(s: string): nat
    requires forall i :: 0 <= i < |s| ==> IsDigit(s[i])
    decreases |s|
  {
    if s == [] then 0 else ParseDigits(s[..|s| - 1]) * 10 + DigitValue(s[|s| - 1])
  }

  /** Reading a rendered number back gives the number: `int(str(n)) == n`. */
  lemma {:induction false} ParseNatToString(n: nat)
    ensures ParseDigits(NatToString(n)) == n
    decreases n
  {
    var r := NatToString(n);
    if n < 10 {
      assert r[..|r| - 1] == [];
    } else {
      assert r[..|r| - 1] == NatToString(n / 10);
      ParseNatToString(n / 10);
    }
  }

  // ---------------------------------------------------------------------------
  // Joining and splitting lines

  /** `sep.join(xs)` for a one-character separator. */
  function Join(xs: seq<string>, sep: char): string
    decreases |xs|
  {
    if |xs| == 0 then ""
    else if |xs| == 1 then xs[0]
    else xs[0] + [sep] + Join(xs[1..], sep)
  }

  /** `s.split(sep)`: the pieces between separators, at least one of them. */
  function Split(s: string, sep: char): (r: seq<string>)
    ensures |r| > 0
    decreases |s|
  {
    if s == [] then [""]
    else
      var rest := Split(s[1..], sep);
      if s[0] == sep then [""] + rest
      else [[s[0]] + rest[0]] + rest[1..]
  }

  /** Appending a line to a non-empty join adds one separator and the line. */
  lemma {:induction false} JoinSnoc(xs: seq<string>, x: string, sep: char)
    requires |xs| > 0
    ensures Join(xs + [x], sep) == Join(xs, sep) + [sep] + x
    decreases |xs|
  {
    if |xs| == 1 {
      assert (xs + [x])[1..] == [x];
    } else {
      assert (xs + [x])[1..] == xs[1..] + [x];
      JoinSnoc(xs[1..], x, sep);
    }
  }

  lemma {:induction false} SplitPrefix(x: string, tail: string, sep: char)
    requires sep !in x
    ensures Split(x + tail, sep) == [x + Split(tail, sep)[0]] + Split(tail, sep)[1..]
    decreases |x|
  {
    if x != [] {
      assert (x + tail)[1..] == x[1..] + tail;
      SplitPrefix(x[1..], tail, sep);
      assert [x[0]] + (x[1..] + Split(tail, sep)[0]) == x + Split(tail, sep)[0];
    } else {
      var t := Split(tail, sep);
      assert x + tail == tail;
      assert x + t[0] == t[0];
      assert t == [t[0]] + t[1..];
    }
  }

  /** Splitting undoes joining when no line holds the separator. */
  lemma {:induction false} SplitJoin(xs: seq<string>, sep: char)
    requires |xs| > 0
    requires forall i :: 0 <= i < |xs| ==> sep !in xs[i]
    ensures Split(Join(xs, sep), sep) == xs
    decreases |xs|
  {
    if |xs| == 1 {
      SplitPrefix(xs[0], [], sep);
      assert xs[0] + [] == xs[0];
    } else {
      var rest := Join(xs[1..], sep);
      SplitJoin(xs[1..], sep);
      assert xs[0] + [sep] + rest == xs[0] + ([sep] + rest);
      SplitPrefix(xs[0], [sep] + rest, sep);
      assert ([sep] + rest)[1..] == rest;
      assert Split([sep] + rest, sep) == [""] + xs[1..];
      assert xs[0] + "" == xs[0];
      assert [xs[0]] + xs[1..] == xs;
    }
  }
}

=== FILE: wrappers.dfy ===
/** Failure-compatible wrapper types shared by the model: an optional value
    (Python's `None` or a value) and a result that is either a value or an
    error (a raised exception). */
module Wrappers {

  datatype Option<+T> = None | Some(value: T) {

    /** The wrapped value, or `default` when there is none (Python's `x or default`
        for an optional field, `dict.get(key, default)` for a missing key). */
    function GetOr(default: T): T {
      match this
      case Some(v) => v
      case None => default
    }
  }

  datatype Result<+T, +E> = Success(value: T) | Failure(error: E) {

    predicate IsFailure() {
      Failure?
    }

    function PropagateFailure<U>(): Result<U, E>
      requires Failure?
    {
      Failure(error)
    }

    function Extract(): T
      requires Success?
    {
      value
    }

    /** The same result with its error wrapped by `wrap`. */
    function MapError<E2>(wrap: E -> E2): Result<T, E2> {
      match this
      case Success(v) => Success(v)
      case Failure(e) => Failure(wrap(e))
    }
  }
}
